=== FILE: README.md ===
# Resilio Sync client: path resolution and remote existence check

A Dafny model of the core of `rslapi.py`, the client library of a small
command-line tool that tells a local Resilio Sync daemon, through its HTTP
control API, to include a file in synchronisation or exclude it from it.

The core has four parts:

1. **Folder records** (`ResilioSyncFolder`). The daemon reports each sync folder
   with an id, a name, an optional root path and a sync level; a folder is
   *selected* exactly when its sync level is positive.
2. **Folder resolution** (`get_folders`, `get_folder_by_path`). Among the
   selected folders, find the one whose root is the given path or one of its
   parents. None is a user error; two or more trips a defensive assertion.
3. **Existence check** (`file_exists`). From the folder root, list one
   directory at a time (`getfileslist`) and either stop at the target, descend
   into the entry that is an ancestor of the target, or give up.
4. **Orchestration** (`set_sync_status`). Resolve the folder, compute the path
   relative to its root, require that it exists, then send `setfilemode` with
   `selected` set from the requested state and `removefromall` always `"false"`.

How the model is built:

- A path is a `seq<string>` of components (`Paths.Path`); an absolute path lists
  the components after the leading "/". "Is a parent of" becomes "is a proper
  prefix of", and the source's `abs_path.parents` is modelled literally
  (`Paths.Parents`) and proved equal to that.
- The daemon is a snapshot (`Protocol.Daemon`): the response to
  `getsyncfolders`, and a function from (folder id, `path` string) to the
  response of `getfileslist`. The listing function receives the query
  *string*, so the convention that the root is asked for with `""` rather than
  `"."` is part of what is proved.
- Every call returns an `Outcome`: its result or the error it raises, and the
  requests it sent, in order. Bounds on the number of listings and "the
  mutation is sent only when the file was found" are statements about that
  request log.
- The source's `assert` statements and exceptions become `Protocol.Error`
  values: a response status other than 200 (`ProtocolError`), more than one
  containing folder (`AmbiguousFolder`), no containing folder
  (`NotInSyncedFolder`), an unselected folder given to the existence check
  (`FolderNotSelected`), a folder without a root joined with a path
  (`MissingRoot`, Python's `TypeError`), and a path that is not found
  (`NotFoundInFolder`).
- Inputs are taken after `normalize_path`: the input path must already be
  canonical (`Paths.IsCanonical`: components only, no `.`, `..` or empty
  component), which is a precondition of the entry points.

Files: `wrappers.dfy` (Option, Result), `paths.dfy` (paths, `parents`,
splitting and joining path text), `protocol.dfy` (requests, responses, errors),
`folders.dfy` (folder records and resolution), `existence.dfy` (the descent),
`sync_status.dfy` (`set_sync_status`), `scenarios.dfy` (concrete runs).

Behaviour of the code worth spelling out:

- The existence check on the folder root itself (empty relative path) lists
  the root once and answers no, because, for literal entry names, no entry
  equals the root or is a parent of it; `set_sync_status` on a folder root therefore raises "Path does
  not exist in the folder!" (`Scenarios.FolderRootNotFound`).
- With two selected folders whose roots are nested, only paths under the inner
  root are ambiguous; a path under the outer root alone resolves to it, and a
  path outside both is "not contained" (`Scenarios.NestedRoots`).
- The existence check sends at most max(1, depth) listings, where depth is the
  number of components of the path below the folder root.

## Model

| member | source | states |
|---|---|---|
| `Folders.FromRecord` | rslapi.py:11-25 | a folder is selected exactly when its sync level is positive; it has a root exactly when the record has a `path`, and that root consists of path components only |
| `Folders.GetFolders` | rslapi.py:72-75 | a status other than 200 raises; otherwise every record becomes a folder, in order, nothing added or dropped |
| `Paths.Parents` | rslapi.py:84 | `p.parents` has one entry per component of `p` |
| `Paths.ParentsAreAncestors` | rslapi.py:84 | a path is in `p.parents` exactly when it is a proper ancestor of `p` |
| `Folders.Matches` | rslapi.py:84 | the source's test (root equals the path or is in its parents) holds exactly when the root exists and is the path or an ancestor of it; a folder without a root never matches |
| `Folders.ContainingFolders` | rslapi.py:80-85 | every collected folder is one of the input folders, selected, with a root containing the path |
| `Folders.ContainingFoldersCount` | rslapi.py:80-89 | the collected list is empty exactly when no position holds a containing folder, has two or more exactly when two positions do, and with one element that element sits at the only such position |
| `Folders.ResolveFolder` | rslapi.py:80-91 | success returns the folder at the unique position whose folder is selected and contains the path; `NotInSyncedFolder` exactly when none does; `AmbiguousFolder` exactly when two do; nothing else is raised |
| `Folders.GetFolderByPath` | rslapi.py:77-91 | stated over the daemon's records directly: a status other than 200 raises; otherwise the result is a folder or one of the two resolution errors, `NotInSyncedFolder` exactly when no record with positive sync level has a parsed path containing the input path, `AmbiguousFolder` exactly when two do, and a success is the folder of the only such record, selected and with a root containing the path |
| `Folders.DisjointRootsNeverAmbiguous` | rslapi.py:87 | when no selected root lies inside another, the uniqueness assertion cannot fail |
| `Folders.NestedRootsAmbiguousInside` | rslapi.py:84-87 | two selected folders with nested roots make every path under the inner root ambiguous |
| `Paths.PrefixesOfOnePathAreNested` | rslapi.py:84-87 | two roots that both contain a path are nested one inside the other |
| `Paths.RelativeTo` | rslapi.py:132 | `abs_path.relative_to(root)` joined back onto the root gives the path again, and stays canonical |
| `Paths.Split` | rslapi.py:22 | splitting text on "/" yields pieces without separators that join back to the text |
| `Paths.Components` | rslapi.py:22 | the kept pieces are neither empty nor ".", come from the input, and every other piece of the input is kept |
| `Paths.ComponentsOne` | rslapi.py:22 | a single piece is dropped exactly when it is empty or "." |
| `Paths.ComponentsAppend` | rslapi.py:22 | pieces are kept or dropped one by one, in order: the components of a concatenation are the concatenation of the components |
| `Paths.Parse` | rslapi.py:22 | `Path(text)` yields only single path components |
| `Paths.SplitJoin` | rslapi.py:103 | splitting the joined text of separator-free pieces gives the pieces back |
| `Paths.Render` | rslapi.py:102-103 | `str()` of a relative path (also the mutation's `path` at rslapi.py:142): the empty path is "."; a one-component path renders as that component; "." names no other path whose first component is a name; a path of components parses back (`Paths.RenderRoundTrip`) |
| `Paths.RenderRoundTrip` | rslapi.py:103 | `str()` of a relative path parses back to the same path |
| `Paths.AbsoluteRoundTrip` | rslapi.py:22 | the text "/" + components parses back to the components |
| `Existence.ListRequest` | rslapi.py:107-113 | a directory is listed with a `getfileslist` request for the folder; the root is asked for with the empty string, any directory whose first component is a name with a non-empty `path` (through `Existence.QueryString`; its text parses back to the directory, `Existence.QueryStringRoundTrip`) |
| `Existence.QueryString` | rslapi.py:102-105 | the folder root is asked for with the empty string, and the empty string names no other directory whose first component is a name |
| `Existence.QueryStringRoundTrip` | rslapi.py:103-105 | the `path` parameter sent for a directory parses back to that directory, and it is the empty string exactly for the folder root |
| `Existence.QueryStringInjective` | rslapi.py:103-111 | two directories are listed with the same `path` parameter only if they are the same directory |
| `Existence.Scan` | rslapi.py:117-126 | the scan of one listing stops at an entry equal to the target, or descends into an entry that is a proper ancestor of the target, and reports neither exactly when no entry is one or the other |
| `Existence.StepShape` | rslapi.py:118-124 | appending an entry to the current directory reaches the target exactly when the entry is the next component and the last one, and is an ancestor of the target exactly when it is the next component and more follow |
| `Existence.ScanAt` | rslapi.py:117-126 | on the way to a relative target, the scan of directory `rel[..i]` looks only for component `i`: missing means give up, last means found, otherwise descend into it |
| `Existence.ScanAtTarget` | rslapi.py:117-126 | listing the target directory itself never finds the target |
| `Existence.Descend` | rslapi.py:100-126 | the loop sends at least one and at most max(1, remaining depth) `getfileslist` requests, all for this folder, the first for the starting directory; the only error is a bad status; a positive answer used exactly one request per level |
| `Existence.DescendAlong` | rslapi.py:100-126 | from `rel[..i]` the loop lists `rel[..i]`, `rel[..i+1]`, ... in order, one component deeper each time, every directory before the last answered and held the next component, and the last directory decides the answer |
| `Existence.StopsAtRoot` | rslapi.py:100-126 | a request log that follows the target from the folder root lists `rel[..0]`, `rel[..1]`, ... in order, every directory before the last answered and held the next component; it raises exactly when the last listing had a status other than 200, answers yes only when every component is listed in its parent directory, no only at the first missing component; when every listing succeeds the answer is exactly whether every component is listed |
| `Existence.FromRoot` | rslapi.py:100-126 | the loop started at the folder root sends between 1 and max(1, depth) requests, all for this folder, and its outcome is characterised as in `StopsAtRoot` |
| `Existence.FileExists` | rslapi.py:93-126 | an unselected folder trips the assertion; a folder without a root raises on a relative path; otherwise at most max(1, depth) listings for this folder, and for a relative path the outcome is characterised as in `StopsAtRoot` (root listed with `""`, the k-th request for the first k components, a bad status raises) |
| `Existence.AbsoluteUnderRoot` | rslapi.py:95-99 | an absolute path under the folder root is checked exactly like the same path relative to the root |
| `Existence.AbsoluteOutsideRoot` | rslapi.py:95-126 | for a selected folder with a root, an absolute path outside the folder root is answered no after one listing of the root, when the root listing has status 200 |
| `SyncStatus.SelectedFlag` | rslapi.py:143 | the `selected` parameter is "true" or "false", "true" exactly when the path is to be included |
| `SyncStatus.MutationRequest` | rslapi.py:138-146 | the mutation is a `setfilemode` request for the folder, with `selected` "true" exactly when including and `removefromall` always "false" |
| `SyncStatus.MutationNamesPath` | rslapi.py:142 | the `path` text of the mutation parses back to the relative path |
| `SyncStatus.Conclude` | rslapi.py:134-146 | the mutation is appended exactly when the existence check answered yes, and is the only `setfilemode` request; a no becomes "Path does not exist in the folder!"; a check error is passed on |
| `SyncStatus.SetSyncStatus` | rslapi.py:128-146 | the first request is `getsyncfolders`; `setfilemode` is sent only as the last request and exactly on success; a resolution failure is raised after that one request |
| `SyncStatus.ConcludeAfterCheck` | rslapi.py:134-146 | given an existence check of the relative path: at most 2 + max(1, depth) requests; success means the path is listed and the log ends with the mutation; the only errors are a bad status (exactly when the check raised) and "not found" (only when the path is not listed); when every listing succeeds, success happens exactly when the path is listed |
| `SyncStatus.SetSyncStatusInFolder` | rslapi.py:128-146 | once the folder is resolved: at most 2 + max(1, depth) requests; success means the relative path is listed and the last request is the mutation for the relative path; a bad status raises exactly when the existence check raised, otherwise a failure is "Path does not exist in the folder!" and means the path is not listed; when every listing succeeds, success happens exactly when the path is listed |
| `SyncStatus.RelativePathRoundTrip` | rslapi.py:130-132 | the resolved root joined with the relative path gives back the input path |
| `SyncStatus.MutatedPathIsBelowRoot` | rslapi.py:130-146 | success implies the path resolved to a folder and lies strictly below its root |
| `SyncStatus.FoundThenMutated` | rslapi.py:128-146 | once the folder is resolved and the existence check of the relative path answers yes, the outcome is success with `getsyncfolders`, the check's listings and the mutation for the relative path, in that order |
| `SyncStatus.SelectUnselectDifferOnlyInFlag` | rslapi.py:143-144 | selecting and unselecting a path give the same outcome; on failure the two request logs are identical, on success they differ only in the final mutation's `selected`, "true" or "false" |
| `Scenarios.ExistingFileFound` | rslapi.py:100-126 | docs/a.txt is found after listing the root with `""` and then `docs` |
| `Scenarios.MissingFileNotFound` | rslapi.py:100-126 | docs/missing.txt is not found, after the same two listings |
| `Scenarios.FolderRootNotFound` | rslapi.py:100-126 | the folder root itself is answered no after one listing |
| `Scenarios.RecordPathParses` | rslapi.py:20-22 | the daemon's path text "/home/u/sync" gives the root /home/u/sync |
| `Scenarios.SelectExistingFile` | rslapi.py:128-146 | selecting /home/u/sync/docs/a.txt sends `getsyncfolders`, two listings, then `setfilemode` for "docs/a.txt" with `selected` "true" and `removefromall` "false" |
| `Scenarios.PathOutsideEveryFolder` | rslapi.py:87-89 | a path under no folder raises "Path is not contained in a synced folder." after the single folder query |
| `Scenarios.NestedRoots` | rslapi.py:80-91 | with roots /a and /a/b: /a/b/y is ambiguous, /a/x resolves to /a, /c is not contained |
| `Scenarios.UnselectedFolderIgnored` | rslapi.py:81-83 | a folder with sync level 0 is skipped even when its root contains the path |

## Left out

- Only POSIX path semantics (`PurePosixPath`) are modelled: on Windows, `pathlib` compares paths (rslapi.py:84, 119, 122) ignoring case and renders the `path` parameters (rslapi.py:103, 142) with `\` separators, neither of which the model follows.
- The HTTP transport (`requests.Session`, basic authentication, the one- and five-second timeouts, disabled TLS verification, `urljoin`, `get_generic`, JSON decoding): the daemon is a snapshot of responses instead.
- `get_token`: it parses an HTML page with BeautifulSoup, a foreign library; the token is not part of the requests in the model.
- `format_timestamp` and the `t` cache-busting parameter: they read the wall clock.
- The `action`, `discovery=1` and `token` parameters: each request constructor stands for its action with those fixed parameters.
- `normalize_path` and `Path.resolve()`: symbolic links, `..` and the current directory are filesystem state. The input path is required to be canonical already; the daemon's folder path is only split into components (`Paths.Parse`), so a daemon path holding `..` or a symbolic link, a relative daemon path, and POSIX's special leading "//" are not modelled.
- Entry names that are not a single component (`""`, `"."`, or a name containing "/"): `pathlib` would collapse or split them (an entry `""` or `"."` joins back to the listed directory itself: when that directory is the target, which happens only for the folder root, the source answers yes and `set_sync_status` then sends `setfilemode` with path "."; when the target lies below it and the entry comes before the next component, `base_path /=` leaves `base_path` unchanged and the source lists the same directory forever); the model treats every listed name as one literal component.
- Missing JSON fields (`name`, `folderid`, `synclevel`, `value`, `files`) raise `KeyError` in the source; the model's records always carry them.
- The response to `setfilemode` is not read by the source, so the model has none.
- A daemon that changes between the requests of one call: the snapshot answers every request of a call from the same state.
- `ResilioSyncFolder.__repr__` and the raw `data` field: cosmetic.
- `ResilioSyncClient.__init__`: session set-up and token retrieval only.
- `rslctl.py`: argument parsing, `shelve` credential storage, `getpass`/`input`, base64 obfuscation, and the loop applying `set_sync_status` to each file argument.
- Python's `assert` statements vanish under `python -O`; the model always treats them as raising.

=== FILE: existence.dfy ===
/**
 * The existence check (`file_exists`): starting at the folder root, list one
 * directory at a time and either stop at the target, descend into the entry
 * that is an ancestor of the target, or give up.
 */
module Existence {
  import opened Wrappers
  import opened Paths
  import opened Protocol
  import opened Folders

  function Max(a: int, b: int): int {
    if a < b then b else a
  }

  /** The `path` parameter of `getfileslist`: "" for the folder root itself, `str(base_path)` below it. */
  function QueryString(dir: Path): (q: string)
    ensures dir == [] ==> q == ""
    ensures q == "" ==> dir == [] || dir[0] == ""
  {
    if dir == [] then ""
    else
      assert |dir| > 1 ==> |Join(dir)| > |dir[0]|;
      Render(dir)
  }

  /** The daemon can read the directory back from the query: the root is "" and every other directory its own text. */
  lemma QueryStringRoundTrip(dir: Path)
    requires forall i :: 0 <= i < |dir| ==> IsComponent(dir[i])
    ensures Parse(QueryString(dir)) == dir
    ensures QueryString(dir) == "" <==> dir == []
  {
    assert Parse("") == [] by {
      assert Split("") == [""];
    }
    if dir != [] {
      RenderRoundTrip(dir);
    }
  }

  /** Distinct directories are asked for with distinct query strings. */
  lemma QueryStringInjective(a: Path, b: Path)
    requires forall i :: 0 <= i < |a| ==> IsComponent(a[i])
    requires forall i :: 0 <= i < |b| ==> IsComponent(b[i])
    ensures QueryString(a) == QueryString(b) <==> a == b
  {
    QueryStringRoundTrip(a);
    QueryStringRoundTrip(b);
  }

  /** The `getfileslist` request for a directory of folder `fid`. */
  function ListRequest(fid: string, dir: Path): (r: Request)
    ensures r.GetFilesList? && r.folderid == fid
    ensures dir == [] ==> r.path == ""
  {
    GetFilesList(fid, QueryString(dir))
  }

  /** The path handed to the existence check: absolute, or relative to the folder root. */
  datatype PathArg = Absolute(segs: Path) | Relative(segs: Path)

  /** How the scan of one listing ends: the target itself, an ancestor of it to descend into, or neither. */
  datatype ScanStep = Found | Into(name: string) | Exhausted

  /** The `for ... else` over one listing of the directory `root + base`. */
  function Scan(root: Path, base: Path, names: seq<string>, target: Path): (s: ScanStep)
    ensures s.Found? ==> exists n :: n in names && root + base + [n] == target
    ensures s.Into? ==> s.name in names && IsProperPrefix(root + base + [s.name], target)
    ensures s.Exhausted? <==>
              forall n :: n in names ==> root + base + [n] != target && !IsProperPrefix(root + base + [n], target)
    decreases |names|
  {
    if |names| == 0 then Exhausted
    else
      var candidate := root + base + [names[0]];
      ParentsAreAncestors(candidate, target);
      if candidate == target then Found
      else if candidate in Parents(target) then Into(names[0])
      else Scan(root, base, names[1..], target)
  }

  /**
   * The `while True` loop from the directory `root + base`: one `getfileslist`
   * request per level, each descent one component deeper.
   */
  function Descend(fid: string, root: Path, base: Path, target: Path, listing: Listing): (o: Outcome<bool>)
    ensures 1 <= |o.requests| <= Max(1, |target| - |root| - |base|)
    ensures o.requests[0] == ListRequest(fid, base)
    ensures forall k :: 0 <= k < |o.requests| ==> o.requests[k].GetFilesList? && o.requests[k].folderid == fid
    ensures o.result.Failure? ==> o.result.error == ProtocolError
    ensures o.result == Success(true) ==> |root| + |base| + |o.requests| == |target|
    decreases |target| - |root| - |base|
  {
    var request := ListRequest(fid, base);
    var response := listing(fid, QueryString(base));
    if response.status != STATUS_OK then Outcome(Failure(ProtocolError), [request])
    else
      match Scan(root, base, response.names, target)
      case Found => Outcome(Success(true), [request])
      case Exhausted => Outcome(Success(false), [request])
      case Into(name) =>
        var rest := Descend(fid, root, base + [name], target, listing);
        Outcome(rest.result, [request] + rest.requests)
  }

  /** The names the daemon lists for the directory `dir` of folder `fid`. */
  function Names(listing: Listing, fid: string, dir: Path): seq<string> {
    listing(fid, QueryString(dir)).names
  }

  /** The daemon answers the listing of `dir` with success. */
  predicate Answers(listing: Listing, fid: string, dir: Path) {
    listing(fid, QueryString(dir)).status == STATUS_OK
  }

  /** Every component of `rel`, in order, is listed in the directory formed by the components before it. */
  predicate Listed(listing: Listing, fid: string, rel: Path) {
    |rel| >= 1 && forall i :: 0 <= i < |rel| ==> rel[i] in Names(listing, fid, rel[..i])
  }

  /** Every directory the descent towards `rel` may list is answered with success. */
  predicate AnswersAlong(listing: Listing, fid: string, rel: Path) {
    Answers(listing, fid, []) && forall i :: 0 <= i < |rel| ==> Answers(listing, fid, rel[..i])
  }

  /** Component `j` is the first component of `rel` missing from its directory's listing. */
  predicate FirstMissing(listing: Listing, fid: string, rel: Path, j: int) {
    0 <= j < |rel| && rel[j] !in Names(listing, fid, rel[..j]) &&
    forall m :: 0 <= m < j ==> rel[m] in Names(listing, fid, rel[..m])
  }

  /**
   * The answer of a descent whose last listing was of `rel[..last]`: a bad status
   * raises, otherwise yes exactly when that listing holds the final component.
   */
  function Verdict(listing: Listing, fid: string, rel: Path, last: nat): Result<bool, Error> {
    if !Answers(listing, fid, rel[..if last <= |rel| then last else |rel|]) then Failure(ProtocolError)
    else Success(last + 1 == |rel| && rel[last] in Names(listing, fid, rel[..last]))
  }

  /**
   * `o` is the log of a descent that started at `rel[..i]`: it listed `rel[..i]`,
   * `rel[..i+1]`, ... up to `rel[..last]`; every directory before the last was
   * answered and held the next component, the last one decided the result, and
   * the descent stopped early only at a missing component.
   */
  predicate StopsAt(listing: Listing, fid: string, rel: Path, i: nat, o: Outcome<bool>) {
    var last := i + |o.requests| - 1;
    && |o.requests| >= 1
    && (last < |rel| || last == 0)
    && (forall k :: 0 <= k < |o.requests| ==> o.requests[k] == ListRequest(fid, rel[..i + k]))
    && (forall m :: i <= m < last ==> Answers(listing, fid, rel[..m]) && rel[m] in Names(listing, fid, rel[..m]))
    && (Answers(listing, fid, rel[..last]) && last + 1 < |rel| ==> rel[last] !in Names(listing, fid, rel[..last]))
    && o.result == Verdict(listing, fid, rel, last)
  }

  /** Appending component `n` to `rel[..i]` reaches the target exactly when `n` is the next component. */
  lemma StepShape(root: Path, rel: Path, i: nat, n: string)
    requires i < |rel|
    ensures root + rel[..i] + [n] == root + rel <==> n == rel[i] && i + 1 == |rel|
    ensures IsProperPrefix(root + rel[..i] + [n], root + rel) <==> n == rel[i] && i + 1 < |rel|
    ensures n == rel[i] ==> root + rel[..i] + [n] == root + rel[..i + 1]
  {
    var t := root + rel[..i] + [n];
    assert t[|root| + i] == n;
    assert (root + rel)[|root| + i] == rel[i];
    assert rel[..i] + [rel[i]] == rel[..i + 1];
    if n == rel[i] {
      assert t == root + rel[..i + 1];
      assert (root + rel)[..|root| + i + 1] == root + rel[..i + 1];
      if i + 1 == |rel| {
        assert rel[..i + 1] == rel;
      }
    }
  }

  /** The scan of the listing of `rel[..i]` looks only for component `i`. */
  lemma ScanAt(root: Path, rel: Path, i: nat, names: seq<string>)
    requires i < |rel|
    ensures Scan(root, rel[..i], names, root + rel) ==
              if rel[i] !in names then Exhausted else if i + 1 == |rel| then Found else Into(rel[i])
  {
    forall n | n in names
      ensures root + rel[..i] + [n] == root + rel <==> n == rel[i] && i + 1 == |rel|
      ensures IsProperPrefix(root + rel[..i] + [n], root + rel) <==> n == rel[i] && i + 1 < |rel|
    {
      StepShape(root, rel, i, n);
    }
    StepShape(root, rel, i, rel[i]);
  }

  /** Listing the target itself finds nothing: no entry is the root or an ancestor of it. */
  lemma ScanAtTarget(root: Path, names: seq<string>)
    ensures Scan(root, [], names, root) == Exhausted
  {
  }

  /** Unfolds one level of the descent: the request for `base`, then what its listing decides. */
  lemma DescendUnfold(fid: string, root: Path, base: Path, target: Path, listing: Listing)
    ensures var o := Descend(fid, root, base, target, listing);
      var response := listing(fid, QueryString(base));
      && o.requests[0] == ListRequest(fid, base)
      && (response.status != STATUS_OK ==> o == Outcome(Failure(ProtocolError), [ListRequest(fid, base)]))
      && (response.status == STATUS_OK && Scan(root, base, response.names, target).Found? ==>
            o == Outcome(Success(true), [ListRequest(fid, base)]))
      && (response.status == STATUS_OK && Scan(root, base, response.names, target).Exhausted? ==>
            o == Outcome(Success(false), [ListRequest(fid, base)]))
      && (response.status == STATUS_OK && Scan(root, base, response.names, target).Into? ==>
            var rest := Descend(fid, root, base + [Scan(root, base, response.names, target).name], target, listing);
            o == Outcome(rest.result, [ListRequest(fid, base)] + rest.requests))
  {
  }

  /** A descent that ends at its first listing makes that one request and answers the verdict on `rel[..i]`. */
  lemma DescendStopsHere(fid: string, root: Path, rel: Path, i: nat, listing: Listing)
    requires i < |rel| || i == 0
    requires !Answers(listing, fid, rel[..i]) || i + 1 >= |rel| || rel[i] !in Names(listing, fid, rel[..i])
    ensures Descend(fid, root, rel[..i], root + rel, listing) == Outcome(Verdict(listing, fid, rel, i), [ListRequest(fid, rel[..i])])
  {
    DescendUnfold(fid, root, rel[..i], root + rel, listing);
    var response := listing(fid, QueryString(rel[..i]));
    if response.status == STATUS_OK {
      if |rel| == 0 {
        assert root + rel == root && rel[..i] == [];
        ScanAtTarget(root, response.names);
      } else {
        ScanAt(root, rel, i, response.names);
      }
    }
  }

  /** A single listing of `rel[..i]` that decides the verdict is a log that stops correctly at `rel[..i]`. */
  lemma StopsAtOne(listing: Listing, fid: string, rel: Path, i: nat, o: Outcome<bool>)
    requires i < |rel| || i == 0
    requires !Answers(listing, fid, rel[..i]) || i + 1 >= |rel| || rel[i] !in Names(listing, fid, rel[..i])
    requires o == Outcome(Verdict(listing, fid, rel, i), [ListRequest(fid, rel[..i])])
    ensures StopsAt(listing, fid, rel, i, o)
  {
    assert i + |o.requests| - 1 == i;
  }

  /** The descent from `rel[..i]` when its listing ends it. */
  lemma DescendAlongStops(fid: string, root: Path, rel: Path, i: nat, listing: Listing)
    requires i < |rel| || i == 0
    requires !Answers(listing, fid, rel[..i]) || i + 1 >= |rel| || rel[i] !in Names(listing, fid, rel[..i])
    ensures StopsAt(listing, fid, rel, i, Descend(fid, root, rel[..i], root + rel, listing))
  {
    DescendStopsHere(fid, root, rel, i, listing);
    StopsAtOne(listing, fid, rel, i, Descend(fid, root, rel[..i], root + rel, listing));
  }

  /** A successful listing that holds the next component descends into it. */
  lemma DescendInto(fid: string, root: Path, base: Path, target: Path, listing: Listing, n: string)
    requires Answers(listing, fid, base)
    requires Scan(root, base, Names(listing, fid, base), target) == Into(n)
    ensures var rest := Descend(fid, root, base + [n], target, listing);
      Descend(fid, root, base, target, listing) == Outcome(rest.result, [ListRequest(fid, base)] + rest.requests)
  {
  }

  /** A log that stops correctly from `rel[..i+1]`, preceded by a listing of `rel[..i]` holding component `i`, stops correctly from `rel[..i]`. */
  lemma StopsAtPrepend(listing: Listing, fid: string, rel: Path, i: nat, rest: Outcome<bool>, o: Outcome<bool>)
    requires i + 1 < |rel|
    requires Answers(listing, fid, rel[..i]) && rel[i] in Names(listing, fid, rel[..i])
    requires StopsAt(listing, fid, rel, i + 1, rest)
    requires o == Outcome(rest.result, [ListRequest(fid, rel[..i])] + rest.requests)
    ensures StopsAt(listing, fid, rel, i, o)
  {
    var last := i + |o.requests| - 1;
    assert last == (i + 1) + |rest.requests| - 1;
    PrependListing(fid, rel, i, rest.requests, o.requests);
    forall m | i <= m < last
      ensures Answers(listing, fid, rel[..m]) && rel[m] in Names(listing, fid, rel[..m])
    {
    }
    assert o.result == Verdict(listing, fid, rel, last);
  }

  /** Listing `rel[..i]` before a log that lists `rel[..i+1]`, `rel[..i+2]`, ... lists `rel[..i]`, `rel[..i+1]`, ... */
  lemma PrependListing(fid: string, rel: Path, i: nat, rest: seq<Request>, requests: seq<Request>)
    requires i + 1 + |rest| <= |rel|
    requires forall k :: 0 <= k < |rest| ==> rest[k] == ListRequest(fid, rel[..i + 1 + k])
    requires requests == [ListRequest(fid, rel[..i])] + rest
    ensures forall k :: 0 <= k < |requests| ==> requests[k] == ListRequest(fid, rel[..i + k])
  {
    forall k | 0 <= k < |requests|
      ensures requests[k] == ListRequest(fid, rel[..i + k])
    {
      if k > 0 {
        assert requests[k] == rest[k - 1];
      }
    }
  }

  /** A successful listing of `rel[..i]` holding component `i`, with more to follow, descends into `rel[..i+1]`. */
  lemma DescendNext(fid: string, root: Path, rel: Path, i: nat, listing: Listing)
    requires i + 1 < |rel|
    requires Answers(listing, fid, rel[..i]) && rel[i] in Names(listing, fid, rel[..i])
    ensures var rest := Descend(fid, root, rel[..i + 1], root + rel, listing);
      Descend(fid, root, rel[..i], root + rel, listing) == Outcome(rest.result, [ListRequest(fid, rel[..i])] + rest.requests)
  {
    ScanAt(root, rel, i, Names(listing, fid, rel[..i]));
    DescendInto(fid, root, rel[..i], root + rel, listing, rel[i]);
    assert rel[..i] + [rel[i]] == rel[..i + 1];
  }

  /** The descent from `rel[..i]` when its listing holds component `i` and more components follow. */
  lemma DescendAlongStep(fid: string, root: Path, rel: Path, i: nat, listing: Listing)
    requires i + 1 < |rel|
    requires Answers(listing, fid, rel[..i]) && rel[i] in Names(listing, fid, rel[..i])
    requires StopsAt(listing, fid, rel, i + 1, Descend(fid, root, rel[..i + 1], root + rel, listing))
    ensures StopsAt(listing, fid, rel, i, Descend(fid, root, rel[..i], root + rel, listing))
  {
    DescendNext(fid, root, rel, i, listing);
    StopsAtPrepend(listing, fid, rel, i, Descend(fid, root, rel[..i + 1], root + rel, listing),
                   Descend(fid, root, rel[..i], root + rel, listing));
  }

  /** The listing of `rel[..i]` succeeds and holds component `i`, and more components follow. */
  predicate HoldsNext(listing: Listing, fid: string, rel: Path, i: nat) {
    i + 1 < |rel| && Answers(listing, fid, rel[..i]) && rel[i] in Names(listing, fid, rel[..i])
  }

  /** Induction over the descent: from `rel[..i]` it follows `rel` one component at a time. */
  lemma {:induction false} DescendAlong(fid: string, root: Path, rel: Path, i: nat, listing: Listing)
    requires i < |rel| || i == 0
    ensures StopsAt(listing, fid, rel, i, Descend(fid, root, rel[..i], root + rel, listing))
    decreases |rel| - i
  {
    if HoldsNext(listing, fid, rel, i) {
      DescendAlong(fid, root, rel, i + 1, listing);
      DescendAlongStep(fid, root, rel, i, listing);
    } else {
      DescendAlongStops(fid, root, rel, i, listing);
    }
  }

  /** A log that stops correctly from the root with yes: every component was listed, one request per level. */
  lemma StopsAtFound(listing: Listing, fid: string, rel: Path, o: Outcome<bool>)
    requires StopsAt(listing, fid, rel, 0, o) && o.result == Success(true)
    ensures Listed(listing, fid, rel) && AnswersAlong(listing, fid, rel) && |o.requests| == |rel|
  {
    var last := |o.requests| - 1;
    assert rel[..0] == [];
    assert last + 1 == |rel| && rel[last] in Names(listing, fid, rel[..last]);
    forall j | 0 <= j < |rel|
      ensures Answers(listing, fid, rel[..j]) && rel[j] in Names(listing, fid, rel[..j])
    {
      if j < last {
        assert 0 <= j < last;
      }
    }
  }

  /** A log that stops correctly from the root with no: some component is missing, the first one at the last listing. */
  lemma StopsAtMissing(listing: Listing, fid: string, rel: Path, o: Outcome<bool>)
    requires StopsAt(listing, fid, rel, 0, o) && o.result == Success(false)
    ensures !Listed(listing, fid, rel)
    ensures (|rel| == 0 && |o.requests| == 1) || FirstMissing(listing, fid, rel, |o.requests| - 1)
  {
    var last := |o.requests| - 1;
    if |rel| > 0 {
      assert rel[last] !in Names(listing, fid, rel[..last]);
    }
  }

  /** A log that stops correctly from the root with an error: some directory on the way was not answered. */
  lemma StopsAtFailure(listing: Listing, fid: string, rel: Path, o: Outcome<bool>)
    requires StopsAt(listing, fid, rel, 0, o) && o.result.Failure?
    ensures o.result.error == ProtocolError && !AnswersAlong(listing, fid, rel)
  {
    var last := |o.requests| - 1;
    assert !Answers(listing, fid, rel[..last]);
    if last == 0 {
      assert rel[..last] == [];
    }
  }

  /**
   * `o` is the outcome of the existence check of `rel` from the folder root: it
   * listed `rel[..0]`, `rel[..1]`, ... in order, every directory before the last
   * answered and held the next component; it raises exactly when the last
   * listing had a bad status, answers yes only when every component is listed,
   * and no only at the first missing component.
   */
  predicate ChecksRelative(listing: Listing, fid: string, rel: Path, o: Outcome<bool>) {
    && 1 <= |o.requests| <= Max(1, |rel|)
    && (forall k :: 0 <= k < |o.requests| ==> o.requests[k] == ListRequest(fid, rel[..k]))
    && (forall k :: 0 <= k < |o.requests| - 1 ==> Answers(listing, fid, rel[..k]) && rel[k] in Names(listing, fid, rel[..k]))
    && (o.result.Failure? <==> !Answers(listing, fid, rel[..|o.requests| - 1]))
    && (o.result.Failure? ==> o.result.error == ProtocolError && !AnswersAlong(listing, fid, rel))
    && (o.result == Success(true) ==> Listed(listing, fid, rel) && AnswersAlong(listing, fid, rel) && |o.requests| == |rel|)
    && (o.result == Success(false) ==> !Listed(listing, fid, rel))
    && (o.result == Success(false) ==> (|rel| == 0 && |o.requests| == 1) || FirstMissing(listing, fid, rel, |o.requests| - 1))
    && (AnswersAlong(listing, fid, rel) ==> o.result == Success(Listed(listing, fid, rel)))
  }

  /** What a log that stops correctly from the root says about `rel`. */
  lemma StopsAtRoot(listing: Listing, fid: string, rel: Path, o: Outcome<bool>)
    requires StopsAt(listing, fid, rel, 0, o)
    ensures ChecksRelative(listing, fid, rel, o)
  {
    match o.result
    case Success(found) =>
      if found {
        StopsAtFound(listing, fid, rel, o);
      } else {
        StopsAtMissing(listing, fid, rel, o);
      }
    case Failure(_) =>
      StopsAtFailure(listing, fid, rel, o);
  }

  /** The descent from the folder root follows `rel` one component at a time. */
  lemma DescendFromRootStops(fid: string, root: Path, rel: Path, listing: Listing)
    ensures StopsAt(listing, fid, rel, 0, Descend(fid, root, [], root + rel, listing))
  {
    DescendAlong(fid, root, rel, 0, listing);
    assert rel[..0] == [];
  }

  /** The existence check of `rel` below the folder root `root`: the descent from the root towards `root + rel`. */
  function FromRoot(fid: string, root: Path, rel: Path, listing: Listing): (o: Outcome<bool>)
    ensures forall k :: 0 <= k < |o.requests| ==> o.requests[k].GetFilesList? && o.requests[k].folderid == fid
    ensures ChecksRelative(listing, fid, rel, o)
  {
    var o := Descend(fid, root, [], root + rel, listing);
    DescendFromRootStops(fid, root, rel, listing);
    StopsAtRoot(listing, fid, rel, o);
    o
  }

  /**
   * `file_exists(folder, path)`. For a selected folder with a root and a
   * relative path it answers exactly whether every component of the path is
   * listed in its parent directory, listing at most one directory per level.
   */
  function FileExists(folder: Folder, arg: PathArg, listing: Listing): (o: Outcome<bool>)
    requires IsCanonical(arg.segs)
    ensures |o.requests| <= Max(1, |arg.segs|)
    ensures forall k :: 0 <= k < |o.requests| ==> o.requests[k].GetFilesList? && o.requests[k].folderid == folder.folderid
    ensures !folder.selected ==> o == Outcome(Failure(FolderNotSelected), [])
    ensures folder.selected && folder.root.None? && arg.Relative? ==> o == Outcome(Failure(MissingRoot), [])
    ensures o.result == Success(true) ==> folder.selected && folder.root.Some?
    ensures folder.selected && folder.root.Some? && arg.Relative? ==> ChecksRelative(listing, folder.folderid, arg.segs, o)
  {
    if !folder.selected then Outcome(Failure(FolderNotSelected), [])
    else
      match folder.root
      case None =>
        if arg.Relative? then Outcome(Failure(MissingRoot), [])
        else
          var request := ListRequest(folder.folderid, []);
          var response := listing(folder.folderid, QueryString([]));
          if response.status != STATUS_OK then Outcome(Failure(ProtocolError), [request])
          else if |response.names| == 0 then Outcome(Success(false), [request])
          else Outcome(Failure(MissingRoot), [request])
      case Some(root) =>
        if arg.Absolute? then Descend(folder.folderid, root, [], arg.segs, listing)
        else FromRoot(folder.folderid, root, arg.segs, listing)
  }

  /** An absolute path under the root is checked exactly as the same path relative to the root. */
  lemma AbsoluteUnderRoot(folder: Folder, p: Path, listing: Listing)
    requires IsCanonical(p)
    requires folder.root.Some? && IsPrefix(folder.root.value, p)
    ensures FileExists(folder, Absolute(p), listing) == FileExists(folder, Relative(RelativeTo(p, folder.root.value)), listing)
  {
  }

  /** An absolute path outside the root is never found: one listing of the root, then no. */
  lemma AbsoluteOutsideRoot(folder: Folder, p: Path, listing: Listing)
    requires IsCanonical(p)
    requires folder.selected && folder.root.Some? && !IsPrefix(folder.root.value, p)
    requires Answers(listing, folder.folderid, [])
    ensures FileExists(folder, Absolute(p), listing) == Outcome(Success(false), [ListRequest(folder.folderid, [])])
  {
    var root := folder.root.value;
    var names := Names(listing, folder.folderid, []);
    forall n | n in names
      ensures root + [] + [n] != p && !IsProperPrefix(root + [] + [n], p)
    {
    }
  }
}

=== FILE: folders.dfy ===
/**
 * Sync folders and the resolution of a local path to the one selected folder
 * that contains it (`ResilioSyncFolder`, `get_folders`, `get_folder_by_path`).
 */
module Folders {
  import opened Wrappers
  import opened Paths
  import opened Protocol

  /** A `ResilioSyncFolder`: the record's fields, its parsed root, and whether it is selected. */
  datatype Folder = Folder(name: string, folderid: string, root: Option<Path>, synclevel: int, selected: bool)

  /** Builds a folder from the daemon's record: selected exactly when the sync level is positive, no root when the record has no path. */
  function FromRecord(rec: FolderRecord): (f: Folder)
    ensures f.selected <==> rec.synclevel > 0
    ensures f.root.None? <==> rec.path.None?
    ensures f.root.Some? ==> forall i :: 0 <= i < |f.root.value| ==> IsComponent(f.root.value[i])
    ensures f.name == rec.name && f.folderid == rec.folderid && f.synclevel == rec.synclevel
  {
    var root := if rec.path.Some? then Some(Parse(rec.path.value)) else None;
    Folder(rec.name, rec.folderid, root, rec.synclevel, rec.synclevel > 0)
  }

  /** `get_folders`: every record of a successful response becomes a folder, in order. */
  function GetFolders(resp: FoldersResponse): (r: Result<seq<Folder>, Error>)
    ensures r.Failure? <==> resp.status != STATUS_OK
    ensures r.Failure? ==> r.error == ProtocolError
    ensures r.Success? ==> |r.value| == |resp.folders|
    ensures r.Success? ==> forall i :: 0 <= i < |resp.folders| ==> r.value[i] == FromRecord(resp.folders[i])
  {
    if resp.status != STATUS_OK then Failure(ProtocolError)
    else Success(seq(|resp.folders|, i requires 0 <= i < |resp.folders| => FromRecord(resp.folders[i])))
  }

  /**
   * The test `folder.path == abs_path or folder.path in abs_path.parents`: it holds
   * exactly for a root that is `p` or an ancestor of `p`; a missing root compares
   * unequal to every path.
   */
  function Matches(root: Option<Path>, p: Path): (m: bool)
    ensures m <==> root.Some? && IsPrefix(root.value, p)
  {
    match root
    case None => false
    case Some(r) =>
      ParentsAreAncestors(r, p);
      assert p[..|p|] == p;
      r == p || r in Parents(p)
  }

  /** The folder is selected and its root is `p` or an ancestor of `p`. */
  predicate Contains(f: Folder, p: Path) {
    f.selected && f.root.Some? && IsPrefix(f.root.value, p)
  }

  /** The loop collecting `containing_folders`: unselected folders are skipped, the others kept when they match. */
  function ContainingFolders(folders: seq<Folder>, p: Path): (c: seq<Folder>)
    ensures forall k :: 0 <= k < |c| ==> c[k] in folders && Contains(c[k], p)
    decreases |folders|
  {
    if |folders| == 0 then []
    else
      var f := folders[0];
      var rest := ContainingFolders(folders[1..], p);
      if !f.selected then rest
      else if Matches(f.root, p) then [f] + rest
      else rest
  }

  /** `c` counts the positions of `folders` that contain `p`: none, one (and which), or at least two. */
  predicate CountsContaining(folders: seq<Folder>, c: seq<Folder>, p: Path) {
    && (|c| == 0 <==> forall i :: 0 <= i < |folders| ==> !Contains(folders[i], p))
    && (|c| >= 2 <==> exists i, j :: 0 <= i < j < |folders| && Contains(folders[i], p) && Contains(folders[j], p))
    && (|c| == 1 ==>
          exists i :: 0 <= i < |folders| && folders[i] == c[0] && Contains(folders[i], p) &&
            forall j :: 0 <= j < |folders| && j != i ==> !Contains(folders[j], p))
  }

  /** A containing first folder adds one to the count of the rest. */
  lemma CountsContainingHead(folders: seq<Folder>, ct: seq<Folder>, p: Path)
    requires |folders| > 0 && Contains(folders[0], p)
    requires CountsContaining(folders[1..], ct, p)
    ensures CountsContaining(folders, [folders[0]] + ct, p)
  {
    var tail := folders[1..];
    assert forall i :: 1 <= i < |folders| ==> folders[i] == tail[i - 1];
    if |ct| == 0 {
      forall j | 0 <= j < |folders| && j != 0
        ensures !Contains(folders[j], p)
      {
        assert folders[j] == tail[j - 1];
      }
    } else {
      var j :| 0 <= j < |tail| && Contains(tail[j], p);
      assert Contains(folders[j + 1], p);
      assert 0 < j + 1 < |folders|;
    }
  }

  /** A first folder that does not contain `p` leaves the count of the rest unchanged. */
  lemma CountsContainingSkip(folders: seq<Folder>, ct: seq<Folder>, p: Path)
    requires |folders| > 0 && !Contains(folders[0], p)
    requires CountsContaining(folders[1..], ct, p)
    ensures CountsContaining(folders, ct, p)
  {
    var tail := folders[1..];
    assert forall i :: 1 <= i < |folders| ==> folders[i] == tail[i - 1];
    if |ct| == 0 {
      forall i | 0 <= i < |folders|
        ensures !Contains(folders[i], p)
      {
        if i > 0 {
          assert folders[i] == tail[i - 1];
        }
      }
    } else if |ct| == 1 {
      var i :| 0 <= i < |tail| && tail[i] == ct[0] && Contains(tail[i], p) &&
        forall j :: 0 <= j < |tail| && j != i ==> !Contains(tail[j], p);
      assert folders[i + 1] == ct[0];
      forall j | 0 <= j < |folders| && j != i + 1
        ensures !Contains(folders[j], p)
      {
        if j > 0 {
          assert folders[j] == tail[j - 1];
        }
      }
    } else {
      var a, b :| 0 <= a < b < |tail| && Contains(tail[a], p) && Contains(tail[b], p);
      assert folders[a + 1] == tail[a] && folders[b + 1] == tail[b];
    }
    if exists a, b :: 0 <= a < b < |folders| && Contains(folders[a], p) && Contains(folders[b], p) {
      var a, b :| 0 <= a < b < |folders| && Contains(folders[a], p) && Contains(folders[b], p);
      assert a > 0;
      assert tail[a - 1] == folders[a] && tail[b - 1] == folders[b];
    }
  }

  /** The number of collected folders says how many positions of `folders` contain `p`. */
  lemma {:induction false} ContainingFoldersCount(folders: seq<Folder>, p: Path)
    ensures |ContainingFolders(folders, p)| == 0 <==>
              forall i :: 0 <= i < |folders| ==> !Contains(folders[i], p)
    ensures |ContainingFolders(folders, p)| >= 2 <==>
              exists i, j :: 0 <= i < j < |folders| && Contains(folders[i], p) && Contains(folders[j], p)
    ensures |ContainingFolders(folders, p)| == 1 ==>
              exists i :: 0 <= i < |folders| && folders[i] == ContainingFolders(folders, p)[0] && Contains(folders[i], p) &&
                forall j :: 0 <= j < |folders| && j != i ==> !Contains(folders[j], p)
    decreases |folders|
  {
    var c := ContainingFolders(folders, p);
    if |folders| > 0 {
      var f := folders[0];
      ContainingFoldersCount(folders[1..], p);
      var ct := ContainingFolders(folders[1..], p);
      assert CountsContaining(folders[1..], ct, p);
      assert Matches(f.root, p) <==> f.root.Some? && IsPrefix(f.root.value, p);
      if Contains(f, p) {
        assert c == [f] + ct;
        CountsContainingHead(folders, ct, p);
      } else {
        assert c == ct;
        CountsContainingSkip(folders, ct, p);
      }
    }
    assert CountsContaining(folders, c, p);
  }

  /**
   * Resolution over a snapshot of folders: the one selected folder containing `p`,
   * `AmbiguousFolder` when there are two or more, `NotInSyncedFolder` when there is none.
   */
  function ResolveFolder(folders: seq<Folder>, p: Path): (r: Result<Folder, Error>)
    ensures r.Success? || r == Failure(NotInSyncedFolder) || r == Failure(AmbiguousFolder)
    ensures r.Success? ==>
              exists i :: 0 <= i < |folders| && folders[i] == r.value && Contains(folders[i], p) &&
                forall j :: 0 <= j < |folders| && j != i ==> !Contains(folders[j], p)
    ensures r == Failure(NotInSyncedFolder) <==> forall i :: 0 <= i < |folders| ==> !Contains(folders[i], p)
    ensures r == Failure(AmbiguousFolder) <==>
              exists i, j :: 0 <= i < j < |folders| && Contains(folders[i], p) && Contains(folders[j], p)
  {
    var containing := ContainingFolders(folders, p);
    ContainingFoldersCount(folders, p);
    if |containing| > 1 then Failure(AmbiguousFolder)
    else if |containing| == 0 then Failure(NotInSyncedFolder)
    else Success(containing[0])
  }

  /** The record describes a selected folder whose root is `p` or an ancestor of `p`. */
  predicate RecordContains(rec: FolderRecord, p: Path) {
    rec.synclevel > 0 && rec.path.Some? && IsPrefix(Parse(rec.path.value), p)
  }

  /**
   * `get_folder_by_path` for an already canonical path: fetch the folders, then resolve.
   * The result is stated directly over the daemon's records.
   */
  function GetFolderByPath(resp: FoldersResponse, p: Path): (r: Result<Folder, Error>)
    requires IsCanonical(p)
    ensures resp.status != STATUS_OK ==> r == Failure(ProtocolError)
    ensures resp.status == STATUS_OK ==> r.Success? || r == Failure(NotInSyncedFolder) || r == Failure(AmbiguousFolder)
    ensures resp.status == STATUS_OK ==>
              (r == Failure(NotInSyncedFolder) <==> forall i :: 0 <= i < |resp.folders| ==> !RecordContains(resp.folders[i], p))
    ensures resp.status == STATUS_OK ==>
              (r == Failure(AmbiguousFolder) <==>
                 exists i, j :: 0 <= i < j < |resp.folders| && RecordContains(resp.folders[i], p) && RecordContains(resp.folders[j], p))
    ensures r.Success? ==>
              exists i :: 0 <= i < |resp.folders| && r.value == FromRecord(resp.folders[i]) && RecordContains(resp.folders[i], p) &&
                forall j :: 0 <= j < |resp.folders| && j != i ==> !RecordContains(resp.folders[j], p)
    ensures r.Success? ==> r.value.selected && r.value.root.Some? && IsPrefix(r.value.root.value, p)
  {
    match GetFolders(resp)
    case Failure(e) => Failure(e)
    case Success(folders) =>
      assert forall i :: 0 <= i < |folders| ==> (Contains(folders[i], p) <==> RecordContains(resp.folders[i], p));
      ResolveFolder(folders, p)
  }

  /** Selected roots no two of which are nested: the condition under which the uniqueness assertion cannot fail. */
  predicate DisjointSelectedRoots(folders: seq<Folder>) {
    forall i, j ::
      (0 <= i < |folders| && 0 <= j < |folders| && i != j &&
       folders[i].selected && folders[j].selected && folders[i].root.Some? && folders[j].root.Some?) ==>
        !IsPrefix(folders[i].root.value, folders[j].root.value)
  }

  /** With disjoint selected roots, resolution never trips the uniqueness assertion. */
  lemma DisjointRootsNeverAmbiguous(folders: seq<Folder>, p: Path)
    requires DisjointSelectedRoots(folders)
    ensures ResolveFolder(folders, p) != Failure(AmbiguousFolder)
  {
    if ResolveFolder(folders, p) == Failure(AmbiguousFolder) {
      var i, j :| 0 <= i < j < |folders| && Contains(folders[i], p) && Contains(folders[j], p);
      PrefixesOfOnePathAreNested(folders[i].root.value, folders[j].root.value, p);
      assert false;
    }
  }

  /** Two selected folders with nested roots make every path under the inner root ambiguous. */
  lemma NestedRootsAmbiguousInside(folders: seq<Folder>, i: nat, j: nat, p: Path)
    requires i < |folders| && j < |folders| && i != j
    requires folders[i].selected && folders[j].selected
    requires folders[i].root.Some? && folders[j].root.Some?
    requires IsPrefix(folders[i].root.value, folders[j].root.value)
    requires IsPrefix(folders[j].root.value, p)
    ensures ResolveFolder(folders, p) == Failure(AmbiguousFolder)
  {
    PrefixTransitive(folders[i].root.value, folders[j].root.value, p);
    assert Contains(folders[i], p) && Contains(folders[j], p);
    if i < j {
      assert 0 <= i < j < |folders|;
    } else {
      assert 0 <= j < i < |folders|;
    }
  }
}

=== FILE: paths.dfy ===
/**
 * Filesystem paths as `pathlib` sees them once they are absolute and resolved:
 * a sequence of components. An absolute path lists the components that follow
 * the leading "/", so the filesystem root is the empty sequence.
 */
module Paths {

  type Path = seq<string>

  /** A piece that `pathlib` drops when it splits path text: empty, or ".". */
  predicate Dropped(x: string) {
    x == "" || x == "."
  }

  /** A name that `pathlib` keeps as exactly one component. */
  predicate IsComponent(s: string) {
    !Dropped(s) && '/' !in s
  }

  /** A path as `Path.resolve()` returns it: components only, none of them "..". */
  predicate IsCanonical(p: Path) {
    forall i :: 0 <= i < |p| ==> IsComponent(p[i]) && p[i] != ".."
  }

  /** `a` equals `p` or is one of its ancestors. */
  predicate IsPrefix(a: Path, p: Path) {
    |a| <= |p| && p[..|a|] == a
  }

  /** `a` is an ancestor of `p`. */
  predicate IsProperPrefix(a: Path, p: Path) {
    |a| < |p| && p[..|a|] == a
  }

  /** `p.parents`: the nearest parent first, down to the root. */
  function Parents(p: Path): (ps: seq<Path>)
    ensures |ps| == |p|
    decreases |p|
  {
    if |p| == 0 then [] else [p[..|p| - 1]] + Parents(p[..|p| - 1])
  }

  /** Membership in `p.parents` is exactly being an ancestor of `p`. */
  lemma {:induction false} ParentsAreAncestors(a: Path, p: Path)
    ensures a in Parents(p) <==> IsProperPrefix(a, p)
    decreases |p|
  {
    if |p| > 0 {
      var init := p[..|p| - 1];
      ParentsAreAncestors(a, init);
      assert Parents(p) == [init] + Parents(init);
      if |a| < |init| {
        assert init[..|a|] == p[..|a|];
      }
      if |a| == |init| {
        assert p[..|a|] == init;
      }
    }
  }

  /** Two paths that both contain `p` are nested one inside the other. */
  lemma PrefixesOfOnePathAreNested(a: Path, b: Path, p: Path)
    requires IsPrefix(a, p) && IsPrefix(b, p)
    ensures IsPrefix(a, b) || IsPrefix(b, a)
  {
    if |a| <= |b| {
      assert b[..|a|] == p[..|b|][..|a|];
    } else {
      assert a[..|b|] == p[..|a|][..|b|];
    }
  }

  /** Containment is transitive. */
  lemma PrefixTransitive(a: Path, b: Path, c: Path)
    requires IsPrefix(a, b) && IsPrefix(b, c)
    ensures IsPrefix(a, c)
  {
    assert c[..|a|] == c[..|b|][..|a|];
  }

  /** `p.relative_to(root)`: the components of `p` below `root`. */
  function RelativeTo(p: Path, root: Path): (rel: Path)
    requires IsPrefix(root, p)
    ensures root + rel == p
    ensures IsCanonical(p) ==> IsCanonical(rel)
  {
    assert p == p[..|root|] + p[|root|..];
    p[|root|..]
  }

  /** `s.split("/")`: the pieces between separators, empty pieces included. */
  function Split(s: string): (pieces: seq<string>)
    ensures |pieces| >= 1
    ensures forall i :: 0 <= i < |pieces| ==> '/' !in pieces[i]
    ensures Join(pieces) == s
    decreases |s|
  {
    if |s| == 0 then [""]
    else
      var rest := Split(s[1..]);
      if s[0] == '/' then
        assert ([""] + rest)[1..] == rest;
        assert s == [s[0]] + s[1..];
        [""] + rest
      else
        var pieces := [[s[0]] + rest[0]] + rest[1..];
        JoinFirst(s[0], rest);
        assert s == [s[0]] + s[1..];
        pieces
  }

  /** `"/".join(pieces)`. */
  function Join(pieces: seq<string>): string
    requires |pieces| >= 1
    decreases |pieces|
  {
    if |pieces| == 1 then pieces[0] else pieces[0] + "/" + Join(pieces[1..])
  }

  /** Prepending a character to the first piece prepends it to the joined string. */
  lemma {:induction false} JoinFirst(c: char, pieces: seq<string>)
    requires |pieces| >= 1
    ensures Join([[c] + pieces[0]] + pieces[1..]) == [c] + Join(pieces)
  {
    var q := [[c] + pieces[0]] + pieces[1..];
    if |pieces| > 1 {
      assert q[1..] == pieces[1..];
      assert Join(q) == ([c] + pieces[0]) + "/" + Join(pieces[1..]);
      assert Join(pieces) == pieces[0] + "/" + Join(pieces[1..]);
      assert ([c] + pieces[0]) + "/" + Join(pieces[1..]) == [c] + (pieces[0] + "/" + Join(pieces[1..]));
    } else {
      assert Join(q) == q[0];
    }
  }

  /** Keeps the pieces `pathlib` treats as components: empty and "." pieces are dropped. */
  function Components(pieces: seq<string>): (p: Path)
    ensures forall i :: 0 <= i < |p| ==> !Dropped(p[i]) && p[i] in pieces
    ensures forall j :: 0 <= j < |pieces| && !Dropped(pieces[j]) ==> pieces[j] in p
    ensures |p| <= |pieces|
    decreases |pieces|
  {
    if |pieces| == 0 then []
    else if Dropped(pieces[0]) then Components(pieces[1..])
    else [pieces[0]] + Components(pieces[1..])
  }

  /**
   * Concatenation is associative. Stated as a lemma so that `ComponentsAppend`
   * can name the one regrouping it needs; an inline assertion of the same fact
   * there makes the solver search far longer.
   */
  lemma SeqAssoc(x: seq<string>, y: seq<string>, z: seq<string>)
    ensures x + (y + z) == (x + y) + z
  {
  }

  /** What `Components` keeps of a single piece: nothing when it is empty or ".", the piece itself otherwise. */
  function Kept(x: string): seq<string> {
    if Dropped(x) then [] else [x]
  }

  /** A single piece is kept exactly when it is neither empty nor ".". */
  lemma ComponentsOne(x: string)
    ensures Components([x]) == Kept(x)
  {
    assert [x][1..] == [];
  }

  /** The first piece is kept or dropped on its own. */
  lemma ComponentsCons(pieces: seq<string>)
    requires |pieces| >= 1
    ensures Components(pieces) == Kept(pieces[0]) + Components(pieces[1..])
  {
    var rest := Components(pieces[1..]);
    if Dropped(pieces[0]) {
      assert Kept(pieces[0]) + rest == rest;
    }
  }

  /** Pieces are kept or dropped one by one, in order: `Components` distributes over concatenation. */
  lemma {:induction false} ComponentsAppend(a: seq<string>, b: seq<string>)
    ensures Components(a + b) == Components(a) + Components(b)
    decreases |a|
  {
    if |a| == 0 {
      assert a + b == b;
    } else {
      var ab := a + b;
      ComponentsAppend(a[1..], b);
      assert ab[0] == a[0] && ab[1..] == a[1..] + b;
      ComponentsCons(ab);
      ComponentsCons(a);
      SeqAssoc(Kept(a[0]), Components(a[1..]), Components(b));
    }
  }

  /** `Path(s).parts` without the leading "/": the components named by the string `s`. */
  function Parse(s: string): (p: Path)
    ensures forall i :: 0 <= i < |p| ==> IsComponent(p[i])
  {
    Components(Split(s))
  }

  /** `str(p)` for a relative path: components joined by "/", and "." for the empty path. */
  function Render(p: Path): (s: string)
    ensures p == [] ==> s == "."
    ensures |p| == 1 ==> s == p[0]
    ensures s == "." ==> p == [] || p[0] == "."
  {
    if p == [] then "."
    else
      assert |p| > 1 ==> Join(p)[|p[0]|] == '/';
      Join(p)
  }

  lemma {:induction false} ComponentsKeepsComponents(p: Path)
    requires forall i :: 0 <= i < |p| ==> IsComponent(p[i])
    ensures Components(p) == p
    decreases |p|
  {
    if |p| > 0 {
      ComponentsKeepsComponents(p[1..]);
      assert p == [p[0]] + p[1..];
    }
  }

  /** Splitting `a + t` when `a` holds no separator: `a` is glued to the first piece of `t`. */
  lemma {:induction false} SplitAppend(a: string, t: string)
    requires '/' !in a
    ensures Split(a + t) == [a + Split(t)[0]] + Split(t)[1..]
    decreases |a|
  {
    var st := Split(t);
    if |a| == 0 {
      assert a + t == t;
      assert a + st[0] == st[0];
      assert st == [st[0]] + st[1..];
    } else {
      SplitAppend(a[1..], t);
      var at := a + t;
      assert at[0] == a[0] && at[1..] == a[1..] + t;
      var rest := Split(at[1..]);
      assert rest == [a[1..] + st[0]] + st[1..];
      assert Split(at) == [[a[0]] + rest[0]] + rest[1..];
      assert [a[0]] + (a[1..] + st[0]) == a + st[0];
    }
  }

  /** Splitting undoes joining, as long as no piece holds a separator. */
  lemma {:induction false} SplitJoin(pieces: seq<string>)
    requires |pieces| >= 1
    requires forall i :: 0 <= i < |pieces| ==> '/' !in pieces[i]
    ensures Split(Join(pieces)) == pieces
    decreases |pieces|
  {
    if |pieces| == 1 {
      SplitAppend(pieces[0], "");
      assert pieces[0] + "" == pieces[0];
    } else {
      SplitJoin(pieces[1..]);
      var t := "/" + Join(pieces[1..]);
      assert Join(pieces) == pieces[0] + t;
      SplitAppend(pieces[0], t);
      assert t[1..] == Join(pieces[1..]);
      assert Split(t) == [""] + pieces[1..];
      assert pieces[0] + "" == pieces[0];
      assert pieces == [pieces[0]] + pieces[1..];
    }
  }

  /** Rendering a path of components and parsing the text gives the path back. */
  lemma RenderRoundTrip(p: Path)
    requires forall i :: 0 <= i < |p| ==> IsComponent(p[i])
    ensures Parse(Render(p)) == p
  {
    if p == [] {
      assert Split(".") == ["."] by {
        assert "."[1..] == "";
      }
    } else {
      SplitJoin(p);
      ComponentsKeepsComponents(p);
    }
  }

  /** The text of an absolute path, "/" followed by its components, parses back to the components. */
  lemma AbsoluteRoundTrip(p: Path)
    requires |p| >= 1
    requires forall i :: 0 <= i < |p| ==> IsComponent(p[i])
    ensures Parse("/" + Join(p)) == p
  {
    var t := "/" + Join(p);
    assert t[0] == '/' && t[1..] == Join(p);
    SplitJoin(p);
    assert Split(t) == [""] + p;
    assert ([""] + p)[1..] == p;
    ComponentsKeepsComponents(p);
  }
}

=== FILE: protocol.dfy ===
/**
 * The daemon's HTTP control API as the client sees it: the requests it sends,
 * the responses it reads, and the ways a call can fail. The transport itself
 * (session, authentication, timestamps, JSON decoding) is not modelled; the
 * daemon is a fixed snapshot that answers every query.
 */
module Protocol {
  import opened Wrappers

  /** The status every response except the final mutation must carry. */
  const STATUS_OK: int := 200

  /** Why a call raises instead of returning. */
  datatype Error =
    | ProtocolError      // a response status other than 200 trips an `assert`
    | AmbiguousFolder    // more than one selected folder contains the path (the `assert len(...) <= 1`)
    | NotInSyncedFolder  // ValueError: no selected folder contains the path
    | FolderNotSelected  // the `assert folder.selected` at the head of the existence check
    | MissingRoot        // TypeError: the folder has no root path and it is joined with a path
    | NotFoundInFolder   // ValueError: the existence check answered no

  /** One request to the daemon's generic action endpoint. */
  datatype Request =
    | GetSyncFolders                       // action=getsyncfolders, discovery=1
    | GetFilesList(folderid: string, path: string)
    | SetFileMode(folderid: string, path: string, selected: string, removefromall: string)

  /** One folder as the daemon describes it; `path` may be missing. */
  datatype FolderRecord = FolderRecord(name: string, folderid: string, path: Option<string>, synclevel: int)

  /** Response to `getsyncfolders`. */
  datatype FoldersResponse = FoldersResponse(status: int, folders: seq<FolderRecord>)

  /** Response to `getfileslist`: the names of the immediate children of the listed directory. */
  datatype ListingResponse = ListingResponse(status: int, names: seq<string>)

  /** The daemon's answer to `getfileslist` for a folder id and a relative path string. */
  type Listing = (string, string) -> ListingResponse

  /** The daemon's state during one invocation. */
  datatype Daemon = Daemon(folders: FoldersResponse, listing: Listing)

  /** What a call returns or raises, with every request it sent, in order. */
  datatype Outcome<+T> = Outcome(result: Result<T, Error>, requests: seq<Request>)
}

=== FILE: scenarios.dfy ===
/**
 * Concrete runs: one synced folder at /home/u/sync whose daemon view holds
 * docs/a.txt and docs/b.txt, and two folders with nested roots.
 */
module Scenarios {
  import opened Wrappers
  import opened Paths
  import opened Protocol
  import opened Folders
  import opened Existence
  import opened SyncStatus

  const SyncRoot: Path := ["home", "u", "sync"]

  const SyncFolder: Folder := Folder("sync", "1", Some(SyncRoot), 1, true)

  /** The daemon's view of folder "1": the root holds docs, docs holds a.txt and b.txt. */
  function Tree(): Listing {
    (fid: string, q: string) =>
      if q == "" then ListingResponse(200, ["docs"])
      else if q == "docs" then ListingResponse(200, ["a.txt", "b.txt"])
      else ListingResponse(200, [])
  }

  lemma TreeQueries(rel: Path)
    ensures AnswersAlong(Tree(), "1", rel)
    ensures Names(Tree(), "1", []) == ["docs"]
    ensures Names(Tree(), "1", ["docs"]) == ["a.txt", "b.txt"]
    ensures QueryString(["docs"]) == "docs"
  {
    assert QueryString(["docs"]) == "docs";
  }

  /** An existing file is found after listing the root and docs. */
  lemma ExistingFileFound()
    ensures var o := FileExists(SyncFolder, Relative(["docs", "a.txt"]), Tree());
      o.result == Success(true) && o.requests == [GetFilesList("1", ""), GetFilesList("1", "docs")]
  {
    var rel: Path := ["docs", "a.txt"];
    TreeQueries(rel);
    assert rel[..0] == [] && rel[..1] == ["docs"];
    assert Listed(Tree(), "1", rel);
  }

  /** A missing file is reported missing after the same two listings. */
  lemma MissingFileNotFound()
    ensures var o := FileExists(SyncFolder, Relative(["docs", "missing.txt"]), Tree());
      o.result == Success(false) && o.requests == [GetFilesList("1", ""), GetFilesList("1", "docs")]
  {
    var rel: Path := ["docs", "missing.txt"];
    TreeQueries(rel);
    assert rel[..0] == [] && rel[..1] == ["docs"];
    assert !Listed(Tree(), "1", rel) by {
      assert rel[1] !in Names(Tree(), "1", rel[..1]);
    }
    assert !FirstMissing(Tree(), "1", rel, 0);
  }

  /** The folder root itself is never found: the root is listed once and none of its entries is the root. */
  lemma FolderRootNotFound()
    ensures FileExists(SyncFolder, Relative([]), Tree()) == Outcome(Success(false), [GetFilesList("1", "")])
  {
    TreeQueries([]);
  }

  const RecordPath: string := "/home/u/sync"

  /** The daemon's path text parses to the root components. */
  lemma RecordPathParses()
    ensures Parse(RecordPath) == SyncRoot
  {
    assert Join(SyncRoot) == "home/u/sync";
    AbsoluteRoundTrip(SyncRoot);
  }

  /**
   * The daemon of the scenarios, with folder "1" reported at the path text `text`.
   * The scenarios below hold for every text naming /home/u/sync — "/home/u/sync"
   * itself (`RecordPathParses`), but equally "/home//u/./sync/" — so they take
   * the text as a parameter constrained by `Parse(text) == SyncRoot`.
   */
  function SyncDaemon(text: string): Daemon {
    Daemon(FoldersResponse(200, [FolderRecord("sync", "1", Some(text), 1)]), Tree())
  }

  /** A path below /home/u/sync resolves to folder "1". */
  lemma SyncFolderResolves(text: string, rel: Path)
    requires Parse(text) == SyncRoot
    requires IsCanonical(SyncRoot + rel)
    ensures GetFolderByPath(SyncDaemon(text).folders, SyncRoot + rel) == Success(SyncFolder)
  {
    var p := SyncRoot + rel;
    var rec := SyncDaemon(text).folders.folders[0];
    assert FromRecord(rec) == SyncFolder;
    assert RecordContains(rec, p) by {
      assert p[..3] == SyncRoot;
    }
  }

  /** The selection request for docs/a.txt in folder "1". */
  lemma SelectDocsFileRequest()
    ensures MutationRequest("1", ["docs", "a.txt"], true) == SetFileMode("1", "docs/a.txt", "true", "false")
  {
    assert Render(["docs", "a.txt"]) == "docs/a.txt";
  }

  /**
   * Selecting an existing file: one folder query, two listings, then the mutation.
   * `p` is /home/u/sync/docs/a.txt; it is passed in together with the fact that it
   * is canonical (what `normalize_path` guarantees), which the precondition of
   * `SetSyncStatus` needs.
   */
  lemma SelectExistingFile(text: string, p: Path)
    requires Parse(text) == SyncRoot
    requires p == SyncRoot + ["docs", "a.txt"] && IsCanonical(p)
    ensures var o := SetSyncStatus(SyncDaemon(text), p, true);
      o.result == Success(()) &&
      o.requests == [GetSyncFolders, GetFilesList("1", ""), GetFilesList("1", "docs"), SetFileMode("1", "docs/a.txt", "true", "false")]
  {
    var rel: Path := ["docs", "a.txt"];
    SyncFolderResolves(text, rel);
    ExistingFileFound();
    assert RelativeTo(p, SyncRoot) == rel;
    FoundThenMutated(SyncDaemon(text), p, true);
    SelectDocsFileRequest();
  }

  /** A path under no synced folder is refused before any listing. */
  lemma PathOutsideEveryFolder(text: string)
    requires Parse(text) == SyncRoot
    ensures SetSyncStatus(SyncDaemon(text), ["home", "other", "x.txt"], true) == Outcome(Failure(NotInSyncedFolder), [GetSyncFolders])
  {
    var p: Path := ["home", "other", "x.txt"];
    assert !RecordContains(SyncDaemon(text).folders.folders[0], p) by {
      assert p[..3] != SyncRoot by {
        assert p[1] != SyncRoot[1];
      }
    }
  }

  const Outer: Folder := Folder("outer", "a", Some(["a"]), 1, true)
  const Inner: Folder := Folder("inner", "b", Some(["a", "b"]), 1, true)

  /**
   * Nested roots trip the uniqueness assertion only for paths under the inner
   * root; a path under the outer root alone resolves, and an outside path is not contained.
   */
  lemma NestedRoots()
    ensures ResolveFolder([Outer, Inner], ["a", "b", "y"]) == Failure(AmbiguousFolder)
    ensures ResolveFolder([Outer, Inner], ["a", "x"]) == Success(Outer)
    ensures ResolveFolder([Outer, Inner], ["c"]) == Failure(NotInSyncedFolder)
  {
    var folders := [Outer, Inner];
    NestedRootsAmbiguousInside(folders, 0, 1, ["a", "b", "y"]);
    assert !Contains(Inner, ["a", "x"]) by {
      assert ["a", "x"][1] != ["a", "b"][1];
    }
    assert Contains(Outer, ["a", "x"]);
    assert !Contains(Outer, ["c"]) by {
      assert ["c"][0] != ["a"][0];
    }
  }

  /** An unselected folder is invisible to resolution even when its root contains the path. */
  lemma UnselectedFolderIgnored()
    ensures ResolveFolder([Outer.(synclevel := 0, selected := false)], ["a", "x"]) == Failure(NotInSyncedFolder)
  {
  }
}

=== FILE: sync_status.dfy ===
/**
 * `set_sync_status`: resolve the folder containing a path, check that the path
 * exists in the daemon's view of that folder, then ask the daemon to include
 * or exclude it.
 */
module SyncStatus {
  import opened Wrappers
  import opened Paths
  import opened Protocol
  import opened Folders
  import opened Existence

  /** The `selected` parameter of `setfilemode`. */
  function SelectedFlag(sync: bool): (flag: string)
    ensures flag == "true" || flag == "false"
    ensures flag == "true" <==> sync
  {
    if sync then "true" else "false"
  }

  /**
   * The `setfilemode` request for the path `rel` below the root of folder `fid`:
   * `selected` follows the requested state, and the path is never removed from
   * other devices. The path is sent as its text (`MutationNamesPath`).
   */
  function MutationRequest(fid: string, rel: Path, sync: bool): (r: Request)
    ensures r.SetFileMode? && r.folderid == fid && r.removefromall == "false"
    ensures r.selected == "true" <==> sync
  {
    SetFileMode(fid, Render(rel), SelectedFlag(sync), "false")
  }

  /** The daemon can read the mutated path back from the request: its `path` text names `rel`. */
  lemma MutationNamesPath(fid: string, rel: Path, sync: bool)
    requires forall i :: 0 <= i < |rel| ==> IsComponent(rel[i])
    ensures Parse(MutationRequest(fid, rel, sync).path) == rel
  {
    RenderRoundTrip(rel);
  }

  /**
   * The tail of `set_sync_status` once the folder is known: `check` is the
   * existence check's outcome; the mutation follows only a positive answer.
   */
  function Conclude(fid: string, rel: Path, check: Outcome<bool>, sync: bool): (o: Outcome<()>)
    requires forall k :: 0 <= k < |check.requests| ==> check.requests[k].GetFilesList?
    ensures |o.requests| >= 1 && o.requests[0] == GetSyncFolders
    ensures forall k :: 0 <= k < |o.requests| - 1 ==> !o.requests[k].SetFileMode?
    ensures o.result.Success? <==> o.requests[|o.requests| - 1].SetFileMode?
    ensures o.result.Success? <==> check.result == Success(true)
    ensures o.result.Success? ==> o.requests == [GetSyncFolders] + check.requests + [MutationRequest(fid, rel, sync)]
    ensures !o.result.Success? ==> o.requests == [GetSyncFolders] + check.requests
    ensures check.result == Success(false) ==> o.result == Failure(NotFoundInFolder)
    ensures check.result.Failure? ==> o.result == Failure(check.result.error)
  {
    var trace := [GetSyncFolders] + check.requests;
    match check.result
    case Failure(e) => Outcome(Failure(e), trace)
    case Success(found) =>
      if !found then Outcome(Failure(NotFoundInFolder), trace)
      else Outcome(Success(()), trace + [MutationRequest(fid, rel, sync)])
  }

  /**
   * `set_sync_status(path, sync)` for an already canonical absolute path `p`.
   * The mutation is the last request and is sent only when the path was found;
   * its response is not read.
   */
  function SetSyncStatus(d: Daemon, p: Path, sync: bool): (o: Outcome<()>)
    requires IsCanonical(p)
    ensures |o.requests| >= 1 && o.requests[0] == GetSyncFolders
    ensures forall k :: 0 <= k < |o.requests| - 1 ==> !o.requests[k].SetFileMode?
    ensures o.result.Success? <==> o.requests[|o.requests| - 1].SetFileMode?
    ensures GetFolderByPath(d.folders, p).Failure? ==>
              o == Outcome(Failure(GetFolderByPath(d.folders, p).error), [GetSyncFolders])
  {
    match GetFolderByPath(d.folders, p)
    case Failure(e) => Outcome(Failure(e), [GetSyncFolders])
    case Success(f) =>
      var rel := RelativeTo(p, f.root.value);
      Conclude(f.folderid, rel, FileExists(f, Relative(rel), d.listing), sync)
  }

  /** How the tail of `set_sync_status` turns the outcome of the existence check of `rel` into its own. */
  lemma ConcludeAfterCheck(listing: Listing, fid: string, rel: Path, check: Outcome<bool>, sync: bool)
    requires ChecksRelative(listing, fid, rel, check)
    ensures var o := Conclude(fid, rel, check, sync);
      && |o.requests| <= 2 + Max(1, |rel|)
      && (o.result.Success? ==> Listed(listing, fid, rel) && o.requests == [GetSyncFolders] + check.requests + [MutationRequest(fid, rel, sync)])
      && (o.result.Failure? ==> o.result.error == ProtocolError || o.result.error == NotFoundInFolder)
      && (o.result == Failure(NotFoundInFolder) ==> !Listed(listing, fid, rel))
      && (o.result == Failure(ProtocolError) <==> check.result.Failure?)
      && (AnswersAlong(listing, fid, rel) ==>
            (o.result.Success? <==> Listed(listing, fid, rel)) &&
            (o.result.Failure? ==> o.result.error == NotFoundInFolder))
  {
  }

  /**
   * Once the folder is resolved: the path relative to its root is checked, and
   * the path is included or excluded exactly when every component is listed.
   */
  lemma SetSyncStatusInFolder(d: Daemon, p: Path, sync: bool)
    requires IsCanonical(p)
    ensures GetFolderByPath(d.folders, p).Success? ==>
      var o := SetSyncStatus(d, p, sync);
      var f := GetFolderByPath(d.folders, p).value;
      var rel := RelativeTo(p, f.root.value);
      && |o.requests| <= 2 + Max(1, |rel|)
      && (o.result.Success? ==>
            Listed(d.listing, f.folderid, rel) &&
            o.requests == [GetSyncFolders] + FileExists(f, Relative(rel), d.listing).requests + [MutationRequest(f.folderid, rel, sync)])
      && (o.result.Failure? ==> o.result.error == ProtocolError || o.result.error == NotFoundInFolder)
      && (o.result == Failure(NotFoundInFolder) ==> !Listed(d.listing, f.folderid, rel))
      && (o.result == Failure(ProtocolError) <==> FileExists(f, Relative(rel), d.listing).result.Failure?)
      && (AnswersAlong(d.listing, f.folderid, rel) ==>
            (o.result.Success? <==> Listed(d.listing, f.folderid, rel)) &&
            (o.result.Failure? ==> o.result.error == NotFoundInFolder))
  {
    if GetFolderByPath(d.folders, p).Success? {
      var f := GetFolderByPath(d.folders, p).value;
      var rel := RelativeTo(p, f.root.value);
      var check := FileExists(f, Relative(rel), d.listing);
      assert SetSyncStatus(d, p, sync) == Conclude(f.folderid, rel, check, sync);
      ConcludeAfterCheck(d.listing, f.folderid, rel, check, sync);
    }
  }

  /** Joining the resolved folder's root with the relative path gives back the input path. */
  lemma RelativePathRoundTrip(d: Daemon, p: Path)
    requires IsCanonical(p)
    ensures GetFolderByPath(d.folders, p).Success? ==>
      var f := GetFolderByPath(d.folders, p).value;
      f.root.value + RelativeTo(p, f.root.value) == p && IsCanonical(RelativeTo(p, f.root.value))
  {
  }

  /** A path that was included or excluded is listed by the daemon, so it is strictly below its folder root. */
  lemma MutatedPathIsBelowRoot(d: Daemon, p: Path, sync: bool)
    requires IsCanonical(p)
    ensures SetSyncStatus(d, p, sync).result.Success? ==>
      GetFolderByPath(d.folders, p).Success? && IsProperPrefix(GetFolderByPath(d.folders, p).value.root.value, p)
  {
    if SetSyncStatus(d, p, sync).result.Success? {
      var f := GetFolderByPath(d.folders, p).value;
      var rel := RelativeTo(p, f.root.value);
      SetSyncStatusInFolder(d, p, sync);
      assert |rel| >= 1;
      assert p[..|f.root.value|] == f.root.value;
    }
  }

  /** When the existence check in the resolved folder answers yes, the mutation follows its listings. */
  lemma FoundThenMutated(d: Daemon, p: Path, sync: bool)
    requires IsCanonical(p)
    ensures GetFolderByPath(d.folders, p).Success? ==>
      var f := GetFolderByPath(d.folders, p).value;
      var rel := RelativeTo(p, f.root.value);
      var check := FileExists(f, Relative(rel), d.listing);
      check.result == Success(true) ==>
        SetSyncStatus(d, p, sync) == Outcome(Success(()), [GetSyncFolders] + check.requests + [MutationRequest(f.folderid, rel, sync)])
  {
    if GetFolderByPath(d.folders, p).Success? {
      var f := GetFolderByPath(d.folders, p).value;
      var rel := RelativeTo(p, f.root.value);
      var check := FileExists(f, Relative(rel), d.listing);
      assert SetSyncStatus(d, p, sync) == Conclude(f.folderid, rel, check, sync);
    }
  }

  /** Selecting and unselecting the same path send the same requests except for the flag. */
  lemma SelectUnselectDifferOnlyInFlag(d: Daemon, p: Path)
    requires IsCanonical(p)
    ensures var on := SetSyncStatus(d, p, true);
      var off := SetSyncStatus(d, p, false);
      && on.result == off.result
      && |on.requests| == |off.requests|
      && on.requests[..|on.requests| - 1] == off.requests[..|off.requests| - 1]
      && (!on.result.Success? ==> on.requests == off.requests)
      && (on.result.Success? ==>
            on.requests[|on.requests| - 1].selected == "true" &&
            off.requests[|off.requests| - 1].selected == "false" &&
            on.requests[|on.requests| - 1].(selected := "false") == off.requests[|off.requests| - 1])
  {
  }
}

=== FILE: wrappers.dfy ===
/** Option and Result, the two wrappers the model uses for absent values and failures. */
module Wrappers {

  /** A value that may be absent: Python's `None` or an object. */
  datatype Option<+T> = None | Some(value: T)

  /** The outcome of an operation that either returns or raises. */
  datatype Result<+T, +E> = Success(value: T) | Failure(error: E)
}
